=== FILE: README.md ===
# ratelimiter core in Dafny

A model of the in-process admission controller of the `ratelimiter`
TypeScript library, with proofs of its properties. The library has four parts:

- **Bbr** (`src/bbr.ts`, module `Bbr`, scenarios in `BbrScenarios`) is the admission
  decision. `allow()` throws `ErrorLimitExceed` when `shouldDrop()` holds.
  Otherwise it counts one more unit in flight and returns a callback. The
  callback records the latency, releases the unit, and counts a pass on success.
  `shouldDrop()` compares the smoothed CPU reading with `cpuThreshold`. It also
  compares `inFlight` with the Little's-law limit
  `maxFlight = floor(maxPass * minRt * winBucketPerSec / 1000 + 0.5)`.
  An overload episode stays in force for one second (the cold period).
- **CPU gauge** (`src/cpu.ts`, module `Cpu`) covers three steps:
  - `calculateBusy` computes the busy percentage between two snapshots;
  - `mergeAll` merges the per-core snapshots;
  - `CpuStat` samples the load and `Cpuproc` blends the readings.
- **RollingCounter** (`src/rollingCounter.ts`, module `RollingCounter`) is a
  timestamped list. It grows at the end and is pruned from the front by a
  window start. Bbr does not use it.
- **Group** (`src/group.ts`, module `Group`) is a keyed memo. `get` calls `newFunc`
  once per key and caches the result. `reset` forgets every cached value.

The module `Numeric` holds the `Min`/`Max` helpers that `Cpu` and `Bbr` share, and
`Wrappers` holds `Option` and `Result`.

All state is held in immutable records. Every operation is a function or method
from the old state and its inputs to the result and the new state.

Inputs are passed in as parameters:

- The clocks (`hrtime`, `process.hrtime`) become a `now` argument.
- `os.cpus()` becomes a snapshot argument.
- Bbr's two bucketed counters come from the external package
  `@zcong/rolling-policy`, which is not part of this model. What they report
  arrives in a `Probe`:
  - the pass counter's `currentPoints()` and `timespan()`;
  - the latency counter's `currentBuckets()` (points and count per bucket) and
    `timespan()`;
  - the CPU reading `cpu.stat()`;
  - the clock reading `sinceHrtime(INIT_HRTIME)` that `shouldDrop()` takes (at most one per call, in
    whichever branch runs).
- `allow()` reads the clock again for the start time after `shouldDrop()` returns, and the
  callback reads it once more; each of those readings is a separate argument.
- The values Bbr hands to the counters' `add` are logged in order, in `passAdds`
  and `rtAdds`.

`prevDrop` has no initializer in the source, so it starts as `undefined`. The
model gives it three states: `Unset` (undefined), `Zero`, and `At(t)`. The two
cached aggregates start as `None` (undefined). Reals stand for JavaScript
numbers.

### Where the code and its tests disagree

The model follows the code. The drop test (`__test__/bbr.test.ts:114-117`) expects
a fresh controller to keep dropping during the cold period. In the code, an
overloaded drop while `prevDrop` is still `undefined` returns early and records no
episode start (`src/bbr.ts:112-113`). The next call below the threshold compares
with NaN, which is false, so it clears the mark to 0 and admits
(`src/bbr.ts:99,106-107`).

- `BbrScenarios.DropScenarioFresh` proves that the third check of that test
  admits under the code as written.
- `BbrScenarios.DropScenarioFromZeroMark` proves that the test's expectations
  hold once the mark is 0.

The tests also call a `destroy()` that `Bbr` does not define.

The model also follows the code on two smaller points:

- `Cpuproc` blends the previous raw reading with the current one. This is not a
  moving average of the smoothed value.
- The configuration is taken as given. No defaults are merged and nothing is
  validated.

## Model

| member | source | states |
|---|---|---|
| `Cpu.AllBusy` | src/cpu.ts:5-10 | busy is irq+nice+sys+user and all exceeds busy by exactly the idle time |
| `Cpu.CalculateBusy` | src/cpu.ts:12-25 | result is in [0,100]; it is 0 iff busy time did not grow; it is 100 iff busy grew and total did not grow or grew no more than busy; otherwise it is 100 * busy growth / total growth |
| `Cpu.BusyIsPlainRatio` | src/cpu.ts:20-24 | when idle time does not run backwards and busy grew, the clamp never applies and the result is exactly 100 * busy growth / total growth |
| `Cpu.CalculateAllBusy` | src/cpu.ts:27-39 | fails with the two core counts iff the lengths differ; otherwise returns one percentage per core, each equal to the busy percentage of that core's pair |
| `Cpu.MergeAll` | src/cpu.ts:41-63 | returns exactly one record whose every field is the sum of that field over all cores |
| `Cpu.MergedEmptyIsZero` | src/cpu.ts:42-53 | merging no cores gives all-zero times |
| `Cpu.MergedBusyIsSumOfBusy` | src/cpu.ts:54-60 | the busy time of the merged record equals the sum of the per-core busy times |
| `Cpu.NewCpuStat` | src/cpu.ts:66-68 | a new sampler is waiting for its baseline and reads 0 |
| `Cpu.StatOf` | src/cpu.ts:88-90 | the `stat` getter returns the sampler's last computed percentage: 0 until the second tick, then the busy percentage of the latest pair of snapshots (see `Cpu.CpuStatTick`) |
| `Cpu.CpuStatTick` | src/cpu.ts:75-86 | the first tick only stores the baseline and keeps the reading; later ticks set the reading to the busy percentage between the merged baseline and the merged snapshot, which is in [0,100]; the baseline is replaced; the core-count error cannot occur |
| `Cpu.NewCpuproc` | src/cpu.ts:99-109 | a new smoother reads 0 with a previous raw reading of 0; its decay is the given one or 0.95 by default, and it starts in range whenever the decay is in [0,1] (always for the default) |
| `Cpu.ProcTick` | src/cpu.ts:111-115 | the new value lies between the previous raw reading and the current reading (decay in [0,1]); it is the previous reading when decay is 1 and the current one when decay is 0; the current reading becomes the previous raw reading |
| `Cpu.ProcStat` | src/cpu.ts:117-119 | `stat()` returns the blended value of the last tick, and reading it changes nothing |
| `Cpu.ProcTickForgetsBlended` | src/cpu.ts:113 | the previous smoothed value has no effect on the next one |
| `Cpu.ProcRunStaysInRange` | src/cpu.ts:111-119 | with decay in [0,1] and every reading in [0,100], the value `stat()` returns stays in [0,100] over any number of ticks |
| `RollingCounter.New` | src/rollingCounter.ts:23-37 | a new counter is empty; its window is the given `windowNano`, or one second when none is given |
| `RollingCounter.Add` | src/rollingCounter.ts:41-46 | appends exactly one entry at the end and leaves earlier entries unchanged |
| `RollingCounter.EffectiveStart` | src/rollingCounter.ts:75-77 | an explicit non-zero start is used as given; an absent or zero start falls back to now minus the window |
| `RollingCounter.FindFirstAtOrAfter` | src/rollingCounter.ts:56 | returns the index of the first entry with time >= start, or -1 iff no entry has time >= start |
| `RollingCounter.Prune` | src/rollingCounter.ts:56-61 | the kept entries are a suffix of the store; every dropped entry has time < start; the first kept entry has time >= start; the result is empty iff no entry has time >= start |
| `RollingCounter.Gc` | src/rollingCounter.ts:54-63 | the kept entries are a suffix of the store; every dropped entry was recorded before the effective window start and the first kept entry at or after it; the window length is unchanged |
| `RollingCounter.ReduceTotal` | src/rollingCounter.ts:48-52 | performs the same pruning as `gc` and returns the sum of the remaining values; for a store with non-decreasing times that is exactly the sum of the values recorded at or after the effective window start |
| `RollingCounter.PruneIdempotent` | src/rollingCounter.ts:54-61 | pruning twice with the same start equals pruning once |
| `RollingCounter.GcIdempotent` | src/rollingCounter.ts:54-63 | at a fixed clock reading, `gc` is idempotent on the counter for every start argument: explicit, 0 or absent (the timer's `gc()`) |
| `RollingCounter.PruneSortedKeepsWindow` | src/rollingCounter.ts:54-61 | for a store with non-decreasing times, every kept entry has time >= start and the kept entries stay in order |
| `RollingCounter.AddKeepsSorted` | src/rollingCounter.ts:41-46 | appending at a time no earlier than the stored times keeps the store sorted |
| `RollingCounter.ReduceTotalIsWindowSum` | src/rollingCounter.ts:48-52 | for a sorted store and a non-zero s, `reduceTotal(s)` equals the sum of the values recorded at or after s (a 0 start means no start; see `RollingCounter.ZeroStartIsAbsent`) |
| `RollingCounter.ZeroStartIsAbsent` | src/rollingCounter.ts:49 | passing start 0 behaves exactly like passing no start, for both `gc` and `reduceTotal` |
| `RollingCounter.Stats` | src/rollingCounter.ts:69-73 | the reported size is the number of stored entries, and it is 0 iff the store is empty |
| `RollingCounter.StatsTrackAddAndGc` | src/rollingCounter.ts:41-73 | the size grows by exactly one on `add`, never grows on `gc`, and drops to 0 on `gc` iff no entry is at or after the window start |
| `Group.Get` | src/group.ts:11-18 | on a cached key, returns the cached value and leaves the group unchanged; on a new key, returns the generator's next value, caches it and counts one call; no other key's entry changes |
| `Group.New` | src/group.ts:3-9 | a new group caches nothing and has made no `newFunc` calls |
| `Group.Reset` | src/group.ts:20-22 | empties the cache |
| `Group.GetAfterResetCallsNewFunc` | src/group.ts:20-22 | after a reset, `get` of any key calls `newFunc` again |
| `Group.GetTwiceSameValue` | src/group.ts:11-18 | a repeated `get` of the same key returns the same value and makes at most one call in total |
| `Group.GetAllCallsPerNewKey` | src/group.ts:11-18 | a series of `get`s calls `newFunc` once per requested key that was not yet cached, and leaves exactly the old and the requested keys cached |
| `Group.CallsSinceResetAreDistinctKeys` | src/group.ts:11-22 | after a reset, the number of `newFunc` calls equals the number of distinct keys requested |
| `Bbr.BucketsPerSecond` | src/bbr.ts:58-63 | `winBucketPerSec` is positive and equals 1000 * winBucket / window |
| `Bbr.New` | src/bbr.ts:19-64 | the configuration is the one given, or `defaultConfig` (window 5000 ms, 50 buckets, threshold 80) when none is given, making 10 buckets per second; a new controller has nothing in flight, an unset drop mark, no cached aggregates and nothing recorded |
| `Bbr.MarkAt` | src/bbr.ts:116 | recording time 0 reads back as "no episode"; any other time is an episode start at that time |
| `Bbr.PeakPass` | src/bbr.ts:133-140 | the result is at least 1 and at least every bucket sum, and it is 1 or one of the bucket sums |
| `Bbr.Complete` | src/bbr.ts:135-137 | the buckets used are a prefix of those reported, at most one shorter; the last one is dropped iff at least winBucket buckets are reported, so at least winBucket - 1 remain in that case |
| `Bbr.LowestAvg` | src/bbr.ts:151-161 | the result is at most `MAX_SAFE_INTEGER` and at most the average of every non-empty bucket, and it is `MAX_SAFE_INTEGER` or one of those averages |
| `Bbr.Ceil` | src/bbr.ts:167 | `Math.ceil`: the smallest integer not below x |
| `Bbr.MinLatency` | src/bbr.ts:151-169 | a fresh `minRt` is an integer in [1, `MAX_SAFE_INTEGER`]; it is 1 iff some non-empty bucket averages at most 1; otherwise it is above 1 less than every non-empty average, and below `MAX_SAFE_INTEGER` it is the ceiling of one of them (the lowest); it is `MAX_SAFE_INTEGER` when no bucket has samples |
| `Bbr.MaxPass` | src/bbr.ts:128-144 | always at least 1; when more than winBucket - 1 buckets are reported, the last one (still filling) is left out; the cached value is returned unchanged while it is set and `timespan() < 1`; otherwise the maximum complete-bucket sum (at least 1) is returned and cached |
| `Bbr.MinRt` | src/bbr.ts:146-170 | always an integer >= 1; the same cache rule as `maxPass`; a recomputed value is the fresh `minRt` of the complete buckets and is cached |
| `Bbr.FlightLimit` | src/bbr.ts:123-125 | the limit is the Little's-law product maxPass * minRt * bucketsPerSecond / 1000 rounded half up |
| `Bbr.MaxFlight` | src/bbr.ts:122-126 | `maxFlight` is a non-negative integer computed from the values `maxPass()` and `minRt()` return; the two caches become what `maxPass()` and `minRt()` leave them, and nothing else changes |
| `Bbr.FlightLimitMonotone` | src/bbr.ts:122-126 | `maxFlight` is non-decreasing in `maxPass` and in `minRt` |
| `Bbr.ConcurrencyVerdict` | src/bbr.ts:110 | drop iff more than one unit is in flight and more than `maxFlight()`; with more than one in flight the state is the one `maxFlight()` leaves; with at most one, `maxFlight` is not evaluated and the state is untouched |
| `Bbr.ShouldDrop` | src/bbr.ts:93-120 | never drops with at most one in flight. At or above the threshold: returns the concurrency verdict with the caches it refreshes, and the mark becomes `now` only when a drop happens while it is 0. Below the threshold: a 0 mark admits with the state unchanged; an unset mark becomes 0 and admits; an episode within one second gives the concurrency verdict with its cache refreshes and keeps the mark; an older episode is cleared to 0 and admits. `inFlight` and the configuration never change |
| `Bbr.DropStartsColdPeriod` | src/bbr.ts:94-119 | from a 0 mark, an overloaded drop at a non-zero time starts an episode; a below-threshold call within one second of it still gives the concurrency verdict, and one after a second clears the episode and admits; without that drop, the below-threshold call admits with the state unchanged |
| `Bbr.EpisodeStartIsKept` | src/bbr.ts:110-119 | while an episode is active, every call keeps its start time, except a below-threshold call after a second, which clears it and admits |
| `Bbr.UnsetMarkSkipsColdPeriod` | src/bbr.ts:93-113 | with the mark unset, an overloaded call records no episode start, and the next below-threshold call admits and sets the mark to 0 |
| `Bbr.Allow` | src/bbr.ts:66-72 | rejects iff `shouldDrop()` holds, with `inFlight` unchanged; otherwise `inFlight` grows by exactly 1 and the callback carries the clock reading taken after `shouldDrop()` returned |
| `Bbr.Done` | src/bbr.ts:73-80 | the callback appends one latency sample (now minus start), decrements `inFlight` by 1, and appends a pass of 1 iff the work succeeded; nothing else changes |
| `Bbr.AllowThenDoneBalances` | src/bbr.ts:66-81 | an admitted unit whose callback runs leaves `inFlight` as it was before `allow`, adds one latency sample (callback time minus start time), and adds a pass iff it succeeded |
| `BbrScenarios.MaxPassScenario` | __test__/bbr.test.ts:41-52 | with bucket sums 200..1000 followed by the bucket still filling, `maxPass()` is 1000 |
| `BbrScenarios.MinRtScenario` | __test__/bbr.test.ts:54-70 | with latency buckets 1..10 up to 91..100, `minRt()` is 6 |
| `BbrScenarios.MaxFlightScenario` | __test__/bbr.test.ts:72-87 | with 10 buckets per second, pass sums 200..1100 and those latency buckets, `maxFlight()` is 60 |
| `BbrScenarios.DropTestLimit` | __test__/bbr.test.ts:94-102 | in the drop test's window, `maxFlight()` is 54, whether or not the aggregates are cached |
| `BbrScenarios.DropScenarioFresh` | __test__/bbr.test.ts:104-123 | on a fresh controller, 50 in flight at 80% CPU is admitted and 80 is dropped; at 70% CPU 80 in flight is then admitted (the test expects a drop), and again two seconds later |
| `BbrScenarios.DropScenarioFromZeroMark` | __test__/bbr.test.ts:104-123 | once the mark is 0, the same calls give the results the test expects: admit, drop and start an episode, drop during the cold period, then admit after it |

## Left out

- Timers and teardown are not modelled, since they are scheduling rather than logic: `setInterval`, `clearInterval` and `destroy` in `CpuStat`, `Cpuproc` and `RollingCounter`, and the `sampleInterval` and `gcInterval` options that only set timer periods. Each tick is an explicit call.
- OS and clock sources are parameters, since they are I/O: `os.cpus()`, `hrtime`, `process.hrtime` and `INIT_HRTIME`.
- The bucketed `RollingCounter` of `@zcong/rolling-policy` (bucket rotation, `currentPoints`, `currentBuckets`, `timespan`, `add`) is not part of this model. Its reports are inputs, and the values passed to its `add` are only logged.
- `Bbr.New`: the model covers only configurations without `cupProc`, since the CPU reading is an input. A supplied `cupProc` only skips creating the default `Cpuproc` (`src/bbr.ts:54-56`), and nothing else assigns `cpu`. So `shouldDrop()` then throws a `TypeError` at `src/bbr.ts:94` instead of deciding, as does the `stat` getter at `src/bbr.ts:85`. A given configuration must have `window > 0` and `winBucket > 0`; a partial configuration (a missing field, which the source does not fill from the defaults) is not modelled.
- The `stat` getter of `Bbr` is not modelled, since it is reporting only. The `model` and `speed` fields of the `os.CpuInfo` records (which `mergeAll` fills with `''` and `0`) are not modelled, since nothing reads them. `prevDropHit` is not modelled, since it is written but never read. The debug logging is not modelled.
- IEEE-754 doubles are not modelled. Numbers are exact reals. `Math.floor` and `Math.ceil` are exact, and NaN is not a value. Its only role, the unset `prevDrop`, is the `Unset` state.
- `inFlight >= 0` is not an invariant of the model. It holds as long as no callback runs more than once. A callback that never runs leaves `inFlight` too high but not negative, and only a second run of the same callback can drive it below 0 (`src/bbr.ts:71,76`). The source leaves this to its callers.

=== FILE: bbr.dfy ===
/**
 * The Bbr admission controller of src/bbr.ts.
 *
 * `allow` admits a unit of work unless `shouldDrop` says the process is
 * overloaded; `shouldDrop` combines the smoothed CPU reading with a
 * Little's-law concurrency limit `maxFlight`, built from the best throughput
 * bucket (`maxPass`) and the best latency bucket (`minRt`), and keeps a
 * one-second cold period after an overload episode starts.
 *
 * The two bucketed counters come from an external library that is not part
 * of this model: whatever they report at the time of a call (the pass
 * counter's per-bucket points, the latency counter's buckets, and each
 * counter's `timespan()`) arrives in a `Probe`, together with the CPU reading
 * `cpu.stat()` and the clock `sinceHrtime(INIT_HRTIME)`. The values the
 * controller hands to the counters' `add` are recorded in the state, in order.
 */
module Bbr {
  import opened Wrappers
  import opened Numeric

  /** The cold period after an overload episode starts, in nanoseconds. */
  const OneSecondNano: int := 1_000_000_000

  /** `Number.MAX_SAFE_INTEGER`, the starting point of the latency minimum. */
  const MaxSafeInteger: int := 9_007_199_254_740_991

  /** `window` in milliseconds, `winBucket` buckets per window, CPU threshold in percent. */
  datatype Config = Config(window: real, winBucket: int, cpuThreshold: real)

  /** `defaultConfig`, used when the constructor gets no configuration. */
  const DefaultConfig: Config := Config(5000.0, 50, 80.0)

  predicate ValidConfig(c: Config) {
    c.window > 0.0 && c.winBucket > 0
  }

  /**
   * `prevDrop`: `Unset` before anything is written (the field has no
   * initializer), `Zero` when no episode is active, `At(t)` when an episode
   * started at time `t`.
   */
  datatype DropMark = Unset | Zero | At(t: int)

  /** The mark `prevDrop = now` leaves: a time of 0 reads back as no episode. */
  function MarkAt(now: int): (m: DropMark)
    ensures m != Unset
    ensures m == Zero <==> now == 0
    ensures m.At? ==> m.t == now
  {
    if now == 0 then Zero else At(now)
  }

  /** One latency bucket: its recorded points and its add count. */
  datatype Bucket = Bucket(points: seq<real>, count: nat)

  /** What the pass counter reports: `currentPoints()` oldest first, and `timespan()`. */
  datatype PassWindow = PassWindow(points: seq<seq<real>>, timespan: real)

  /** What the latency counter reports: `currentBuckets()` oldest first, and `timespan()`. */
  datatype RtWindow = RtWindow(buckets: seq<Bucket>, timespan: real)

  /** Everything a call observes from outside the controller. */
  datatype Probe = Probe(cpu: real, now: int, pass: PassWindow, rt: RtWindow)

  /**
   * The controller state. `rawMaxPass` and `rawMinRt` are the cached
   * aggregates (`None` until first computed); `passAdds` and `rtAdds` are the
   * values handed to the pass and latency counters, in order.
   */
  datatype Limiter = Limiter(
    config: Config,
    winBucketPerSec: real,
    inFlight: int,
    prevDrop: DropMark,
    rawMaxPass: Option<real>,
    rawMinRt: Option<int>,
    passAdds: seq<int>,
    rtAdds: seq<int>)

  /** `winBucketPerSec = 1000 / bucketDuration` with `bucketDuration = window / winBucket`. */
  function BucketsPerSecond(c: Config): (r: real)
    requires ValidConfig(c)
    ensures r > 0.0
    ensures r * c.window == 1000.0 * c.winBucket as real
  {
    var bucketDuration := c.window / c.winBucket as real;
    assert bucketDuration * c.winBucket as real == c.window;
    1000.0 / bucketDuration
  }

  /** The states a controller can reach. */
  ghost predicate Valid(s: Limiter) {
    && ValidConfig(s.config)
    && s.winBucketPerSec == BucketsPerSecond(s.config)
    && (s.rawMaxPass.Some? ==> s.rawMaxPass.value >= 1.0)
    && (s.rawMinRt.Some? ==> s.rawMinRt.value >= 1)
    && (s.prevDrop.At? ==> s.prevDrop.t != 0)
  }

  /**
   * The constructor: the given configuration as a whole, or `defaultConfig`
   * when none is given (fields are not merged).
   */
  function New(cfg: Option<Config>): (s: Limiter)
    requires cfg.Some? ==> ValidConfig(cfg.value)
    ensures Valid(s)
    ensures cfg.Some? ==> s.config == cfg.value
    ensures cfg.None? ==> s.config == DefaultConfig && s.winBucketPerSec == 10.0
    ensures s.winBucketPerSec * s.config.window == 1000.0 * s.config.winBucket as real
    ensures s.inFlight == 0 && s.prevDrop == Unset
    ensures s.rawMaxPass == None && s.rawMinRt == None
    ensures s.passAdds == [] && s.rtAdds == []
  {
    var c := if cfg.Some? then cfg.value else DefaultConfig;
    Limiter(c, BucketsPerSecond(c), 0, Unset, None, None, [], [])
  }

  /** `sum(nums)`: a left fold from 0. */
  function Sum(xs: seq<real>): real
    decreases |xs|
  {
    if |xs| == 0 then 0.0 else Sum(xs[..|xs| - 1]) + xs[|xs| - 1]
  }

  /**
   * The buckets the aggregates look at: when more than `winBucket - 1` are
   * reported, the last one (the bucket still filling) is popped.
   */
  function Complete<T>(xs: seq<T>, winBucket: int): (r: seq<T>)
    ensures |r| <= |xs| && r == xs[..|r|]
    ensures |xs| - 1 <= |r|
    ensures |r| < |xs| <==> |xs| >= winBucket && |xs| > 0
    ensures winBucket >= 1 && |xs| >= winBucket ==> |r| >= winBucket - 1
  {
    if |xs| > winBucket - 1 && |xs| > 0 then xs[..|xs| - 1] else xs
  }

  /** The `maxPass` loop: the largest bucket sum, and never less than 1. */
  function PeakPass(pts: seq<seq<real>>): (r: real)
    ensures r >= 1.0
    ensures forall i :: 0 <= i < |pts| ==> Sum(pts[i]) <= r
    ensures r == 1.0 || exists i :: 0 <= i < |pts| && r == Sum(pts[i])
    decreases |pts|
  {
    if |pts| == 0 then 1.0
    else
      var m := PeakPass(pts[..|pts| - 1]);
      assert forall i :: 0 <= i < |pts| - 1 ==> pts[..|pts| - 1][i] == pts[i];
      Max(m, Sum(pts[|pts| - 1]))
  }

  function Avg(b: Bucket): real
    requires b.count != 0
  {
    Sum(b.points) / b.count as real
  }

  /** The `minRt` loop: the smallest average over non-empty buckets, starting from `MaxSafeInteger`. */
  function LowestAvg(bs: seq<Bucket>): (r: real)
    ensures r <= MaxSafeInteger as real
    ensures forall i :: 0 <= i < |bs| && bs[i].count != 0 ==> r <= Avg(bs[i])
    ensures r == MaxSafeInteger as real || exists i :: 0 <= i < |bs| && bs[i].count != 0 && r == Avg(bs[i])
    decreases |bs|
  {
    if |bs| == 0 then MaxSafeInteger as real
    else
      var m := LowestAvg(bs[..|bs| - 1]);
      assert forall i :: 0 <= i < |bs| - 1 ==> bs[..|bs| - 1][i] == bs[i];
      var b := bs[|bs| - 1];
      if b.count == 0 then m else Min(m, Avg(b))
  }

  /** `Math.ceil`. */
  function Ceil(x: real): (n: int)
    ensures n as real - 1.0 < x <= n as real
  {
    -((-x).Floor)
  }

  /**
   * A fresh `minRt`: the ceiling of the lowest average, with a non-positive
   * minimum replaced by 1, and `MaxSafeInteger` when no bucket has samples.
   */
  function MinLatency(bs: seq<Bucket>): (r: int)
    ensures 1 <= r <= MaxSafeInteger
    ensures forall i :: 0 <= i < |bs| && bs[i].count != 0 ==> r == 1 || (r - 1) as real < Avg(bs[i])
    ensures r == 1 <==> exists i :: 0 <= i < |bs| && bs[i].count != 0 && Avg(bs[i]) <= 1.0
    ensures 1 < r < MaxSafeInteger ==>
      exists i :: 0 <= i < |bs| && bs[i].count != 0 && (r - 1) as real < Avg(bs[i]) <= r as real
    ensures (forall i :: 0 <= i < |bs| ==> bs[i].count == 0) ==> r == MaxSafeInteger
  {
    var m := LowestAvg(bs);
    var floored := if m <= 0.0 then 1.0 else m;
    Ceil(floored)
  }

  /**
   * `maxPass()`: the cached value while it is set and the pass counter has
   * not rotated (`timespan() < 1`); otherwise recomputed over the complete
   * buckets and cached.
   */
  function MaxPass(s: Limiter, w: PassWindow): (r: (real, Limiter))
    requires Valid(s)
    ensures Valid(r.1)
    ensures r.0 >= 1.0
    ensures s.rawMaxPass.Some? && w.timespan < 1.0 ==> r == (s.rawMaxPass.value, s)
    ensures s.rawMaxPass.None? || w.timespan >= 1.0 ==>
      && r.1 == s.(rawMaxPass := Some(r.0))
      && (forall i :: 0 <= i < |Complete(w.points, s.config.winBucket)| ==>
            Sum(Complete(w.points, s.config.winBucket)[i]) <= r.0)
      && (r.0 == 1.0 || (exists i :: 0 <= i < |Complete(w.points, s.config.winBucket)| &&
                          r.0 == Sum(Complete(w.points, s.config.winBucket)[i])))
  {
    if s.rawMaxPass.Some? && s.rawMaxPass.value > 0.0 && w.timespan < 1.0 then
      (s.rawMaxPass.value, s)
    else
      var v := PeakPass(Complete(w.points, s.config.winBucket));
      (v, s.(rawMaxPass := Some(v)))
  }

  /** `minRt()`: the same cache rule as `maxPass`, over the latency counter. */
  function MinRt(s: Limiter, w: RtWindow): (r: (int, Limiter))
    requires Valid(s)
    ensures Valid(r.1)
    ensures r.0 >= 1
    ensures s.rawMinRt.Some? && w.timespan < 1.0 ==> r == (s.rawMinRt.value, s)
    ensures s.rawMinRt.None? || w.timespan >= 1.0 ==>
      r.0 == MinLatency(Complete(w.buckets, s.config.winBucket)) && r.1 == s.(rawMinRt := Some(r.0))
  {
    if s.rawMinRt.Some? && s.rawMinRt.value > 0 && w.timespan < 1.0 then
      (s.rawMinRt.value, s)
    else
      var v := MinLatency(Complete(w.buckets, s.config.winBucket));
      (v, s.(rawMinRt := Some(v)))
  }

  /** Little's law rounded half up: `floor(maxPass * minRt * winBucketPerSec / 1000 + 0.5)`. */
  function FlightLimit(maxPass: real, minRt: int, perSec: real): (n: int)
    ensures n as real - 0.5 <= maxPass * minRt as real * perSec / 1000.0 < n as real + 0.5
    ensures maxPass >= 0.0 && minRt >= 0 && perSec >= 0.0 ==> n >= 0
  {
    var x := maxPass * minRt as real * perSec / 1000.0;
    assert maxPass >= 0.0 && minRt >= 0 && perSec >= 0.0 ==> x >= 0.0 by {
      if maxPass >= 0.0 && minRt >= 0 && perSec >= 0.0 {
        ProductNonNegative(maxPass, minRt as real, perSec);
      }
    }
    (x + 0.5).Floor
  }

  lemma ProductNonNegative(a: real, b: real, c: real)
    requires a >= 0.0 && b >= 0.0 && c >= 0.0
    ensures a * b * c >= 0.0
  {
    assert a * b >= 0.0;
  }

  /** `minRt()` does not look at the pass cache. */
  lemma MinRtIgnoresPassCache(s: Limiter, v: Option<real>, w: RtWindow)
    requires Valid(s) && Valid(s.(rawMaxPass := v))
    ensures MinRt(s.(rawMaxPass := v), w).0 == MinRt(s, w).0
    ensures MinRt(s.(rawMaxPass := v), w).1 == MinRt(s, w).1.(rawMaxPass := v)
  {
  }

  /** `maxFlight()`: evaluates `maxPass` and then `minRt`, which may refresh their caches. */
  function MaxFlight(s: Limiter, p: Probe): (r: (int, Limiter))
    requires Valid(s)
    ensures Valid(r.1)
    ensures r.0 >= 0
    ensures r.1 == s.(rawMaxPass := r.1.rawMaxPass, rawMinRt := r.1.rawMinRt)
    ensures r.0 == FlightLimit(MaxPass(s, p.pass).0, MinRt(s, p.rt).0, s.winBucketPerSec)
    ensures r.1.rawMaxPass == MaxPass(s, p.pass).1.rawMaxPass
    ensures r.1.rawMinRt == MinRt(s, p.rt).1.rawMinRt
  {
    var a := MaxPass(s, p.pass);
    var b := MinRt(a.1, p.rt);
    MinRtIgnoresPassCache(s, a.1.rawMaxPass, p.rt);
    (FlightLimit(a.0, b.0, s.winBucketPerSec), b.1)
  }

  /** The concurrency verdict `inFlight > 1 && inFlight > maxFlight()`, with the cache updates it causes. */
  function ConcurrencyVerdict(s: Limiter, p: Probe): (r: (bool, Limiter))
    requires Valid(s)
    ensures Valid(r.1)
    ensures r.0 <==> s.inFlight > 1 && s.inFlight > MaxFlight(s, p).0
    ensures s.inFlight <= 1 ==> r.1 == s
    ensures s.inFlight > 1 ==> r.1 == MaxFlight(s, p).1
    ensures r.1 == s.(rawMaxPass := r.1.rawMaxPass, rawMinRt := r.1.rawMinRt)
  {
    if s.inFlight > 1 then
      var (limit, s1) := MaxFlight(s, p);
      (s.inFlight > limit, s1)
    else
      (false, s)
  }

  /**
   * `shouldDrop()`. Below the CPU threshold: no active episode admits; an
   * episode younger than one second gives the concurrency verdict; an older
   * one (or the unset mark, whose comparison with NaN fails) is cleared to 0
   * and admits. At or above the threshold: the concurrency verdict, and a
   * drop while the mark is 0 starts an episode at `now`.
   */
  function ShouldDrop(s: Limiter, p: Probe): (r: (bool, Limiter))
    requires Valid(s)
    ensures Valid(r.1)
    ensures s.inFlight <= 1 ==> !r.0
    ensures r.1 == s.(prevDrop := r.1.prevDrop, rawMaxPass := r.1.rawMaxPass, rawMinRt := r.1.rawMinRt)
    ensures p.cpu >= s.config.cpuThreshold ==>
      && r.0 == (s.inFlight > 1 && s.inFlight > MaxFlight(s, p).0)
      && r.1.prevDrop == (if r.0 && s.prevDrop == Zero then MarkAt(p.now) else s.prevDrop)
      && r.1.(prevDrop := s.prevDrop) == ConcurrencyVerdict(s, p).1
    ensures p.cpu < s.config.cpuThreshold && s.prevDrop == Zero ==> r == (false, s)
    ensures p.cpu < s.config.cpuThreshold && s.prevDrop == Unset ==> r == (false, s.(prevDrop := Zero))
    ensures p.cpu < s.config.cpuThreshold && s.prevDrop.At? && p.now - s.prevDrop.t <= OneSecondNano ==>
      && r.0 == (s.inFlight > 1 && s.inFlight > MaxFlight(s, p).0)
      && r.1 == ConcurrencyVerdict(s, p).1
    ensures p.cpu < s.config.cpuThreshold && s.prevDrop.At? && p.now - s.prevDrop.t > OneSecondNano ==>
      r == (false, s.(prevDrop := Zero))
  {
    if p.cpu < s.config.cpuThreshold then
      match s.prevDrop
      case Zero => (false, s)
      case Unset => (false, s.(prevDrop := Zero))
      case At(t) =>
        if p.now - t <= OneSecondNano then ConcurrencyVerdict(s, p)
        else (false, s.(prevDrop := Zero))
    else
      var (drop, s1) := ConcurrencyVerdict(s, p);
      if drop && s1.prevDrop == Zero then (true, s1.(prevDrop := MarkAt(p.now)))
      else (drop, s1)
  }

  /** What `allow()` hands back: a rejection, or the callback holding its start time. */
  datatype Admission = Rejected | Admitted(startTime: int)

  /**
   * `allow()`: throws when `shouldDrop()` holds; otherwise counts one more unit
   * in flight. `p` is what `shouldDrop()` observes; `startNow` is the clock
   * reading `allow()` takes after it returns.
   */
  function Allow(s: Limiter, p: Probe, startNow: int): (r: (Admission, Limiter))
    requires Valid(s)
    ensures Valid(r.1)
    ensures r.0 == Rejected <==> ShouldDrop(s, p).0
    ensures r.0 == Rejected ==> r.1 == ShouldDrop(s, p).1 && r.1.inFlight == s.inFlight
    ensures r.0.Admitted? ==>
      && r.0.startTime == startNow
      && r.1 == ShouldDrop(s, p).1.(inFlight := s.inFlight + 1)
    ensures r.1.passAdds == s.passAdds && r.1.rtAdds == s.rtAdds && r.1.config == s.config
  {
    var (drop, s1) := ShouldDrop(s, p);
    if drop then (Rejected, s1)
    else (Admitted(startNow), s1.(inFlight := s1.inFlight + 1))
  }

  /**
   * The callback `allow()` returns, invoked at time `now`: records the elapsed
   * time as a latency sample, releases the unit, and records a pass iff the
   * work succeeded.
   */
  function Done(s: Limiter, startTime: int, now: int, success: bool): (s': Limiter)
    requires Valid(s)
    ensures Valid(s')
    ensures s'.inFlight == s.inFlight - 1
    ensures |s'.rtAdds| == |s.rtAdds| + 1 && s'.rtAdds[..|s.rtAdds|] == s.rtAdds
    ensures s'.rtAdds[|s.rtAdds|] == now - startTime
    ensures success ==> s'.passAdds == s.passAdds + [1]
    ensures !success ==> s'.passAdds == s.passAdds
    ensures s'.config == s.config && s'.prevDrop == s.prevDrop
    ensures s'.rawMaxPass == s.rawMaxPass && s'.rawMinRt == s.rawMinRt
  {
    var rt := now - startTime;
    var s1 := s.(rtAdds := s.rtAdds + [rt], inFlight := s.inFlight - 1);
    if success then s1.(passAdds := s1.passAdds + [1]) else s1
  }

  /** `Floor` is monotone in its argument. */
  lemma FloorMonotone(x: real, y: real)
    requires x <= y
    ensures x.Floor <= y.Floor
  {
  }

  lemma MulMonotone(a: real, b: real, c: real)
    requires 0.0 <= a <= b && c >= 0.0
    ensures a * c <= b * c
  {
    assert (b - a) * c >= 0.0;
  }

  /** `maxFlight` never decreases when `maxPass` or `minRt` grows, the other held fixed. */
  lemma FlightLimitMonotone(pass1: real, pass2: real, rt1: int, rt2: int, perSec: real)
    requires 0.0 <= pass1 <= pass2
    requires 0 <= rt1 <= rt2
    requires perSec >= 0.0
    ensures FlightLimit(pass1, rt1, perSec) <= FlightLimit(pass2, rt2, perSec)
  {
    var x1 := pass1 * rt1 as real;
    var x2 := pass2 * rt2 as real;
    MulMonotone(pass1, pass2, rt1 as real);
    MulMonotone(rt1 as real, rt2 as real, pass2);
    assert x1 <= x2;
    MulMonotone(x1, x2, perSec);
    FloorMonotone(x1 * perSec / 1000.0 + 0.5, x2 * perSec / 1000.0 + 0.5);
  }

  /**
   * Hysteresis. From a state with no active episode, an overloaded drop at a
   * non-zero time starts an episode; a later call below the CPU threshold
   * still gives the concurrency verdict within one second of that start, and
   * clears the episode and admits after it.
   */
  lemma DropStartsColdPeriod(s: Limiter, p1: Probe, p2: Probe)
    requires Valid(s) && s.prevDrop == Zero
    requires p1.cpu >= s.config.cpuThreshold && p1.now != 0
    requires p2.cpu < s.config.cpuThreshold
    ensures ShouldDrop(s, p1).0 ==> ShouldDrop(s, p1).1.prevDrop == At(p1.now)
    ensures var s1 := ShouldDrop(s, p1).1;
            ShouldDrop(s, p1).0 && p2.now - p1.now <= OneSecondNano ==>
              ShouldDrop(s1, p2).0 == (s1.inFlight > 1 && s1.inFlight > MaxFlight(s1, p2).0)
    ensures var s1 := ShouldDrop(s, p1).1;
            ShouldDrop(s, p1).0 && p2.now - p1.now > OneSecondNano ==>
              ShouldDrop(s1, p2) == (false, s1.(prevDrop := Zero))
    ensures !ShouldDrop(s, p1).0 ==> ShouldDrop(ShouldDrop(s, p1).1, p2) == (false, ShouldDrop(s, p1).1)
  {
  }

  /** Only the first drop of an episode records its start; later drops keep it. */
  lemma EpisodeStartIsKept(s: Limiter, p: Probe)
    requires Valid(s) && s.prevDrop.At?
    ensures ShouldDrop(s, p).1.prevDrop == s.prevDrop ||
            (p.cpu < s.config.cpuThreshold && ShouldDrop(s, p) == (false, s.(prevDrop := Zero)))
  {
  }

  /**
   * A fresh controller (mark unset): an overloaded drop records no episode
   * start, and the next call below the threshold clears the mark and admits
   * whatever is in flight.
   */
  lemma UnsetMarkSkipsColdPeriod(s: Limiter, p1: Probe, p2: Probe)
    requires Valid(s) && s.prevDrop == Unset
    requires p1.cpu >= s.config.cpuThreshold
    requires p2.cpu < s.config.cpuThreshold
    ensures ShouldDrop(s, p1).1.prevDrop == Unset
    ensures ShouldDrop(ShouldDrop(s, p1).1, p2).0 == false
    ensures ShouldDrop(ShouldDrop(s, p1).1, p2).1.prevDrop == Zero
  {
  }

  /**
   * One admitted unit whose callback runs: the in-flight count returns to
   * its value before `allow`, one latency sample is recorded, and one pass iff
   * the work succeeded.
   */
  lemma AllowThenDoneBalances(s: Limiter, p: Probe, startNow: int, now: int, success: bool)
    requires Valid(s)
    requires Allow(s, p, startNow).0.Admitted?
    ensures var (a, s1) := Allow(s, p, startNow);
            var s2 := Done(s1, a.startTime, now, success);
            && s2.inFlight == s.inFlight
            && s2.rtAdds == s.rtAdds + [now - startNow]
            && (success <==> |s2.passAdds| == |s.passAdds| + 1)
            && s2.passAdds[..|s.passAdds|] == s.passAdds
  {
    var (a, s1) := Allow(s, p, startNow);
    var s2 := Done(s1, a.startTime, now, success);
    assert s2.rtAdds == s.rtAdds + [now - startNow];
  }
}

=== FILE: bbr_scenarios.dfy ===
/**
 * The controller scenarios of the repository's tests, with a window of
 * 1000 ms in 10 buckets (10 buckets per second) and a threshold of 80%.
 */
module BbrScenarios {
  import opened Wrappers
  import opened Bbr

  const TestConfig: Config := Config(1000.0, 10, 80.0)

  /** Pass buckets 200, 300, ..., 1000 followed by the bucket still filling. */
  function RisingPass(): seq<seq<real>> {
    [[200.0], [300.0], [400.0], [500.0], [600.0], [700.0], [800.0], [900.0], [1000.0], []]
  }

  /** Latency buckets holding 1..10, 11..20, ..., 91..100. */
  function TenLatencyBuckets(): (bs: seq<Bucket>)
    ensures |bs| == 10
    ensures forall i :: 0 <= i < 10 ==> |bs[i].points| == 10 && bs[i].count == 10
    ensures forall i, j :: 0 <= i < 10 && 0 <= j < 10 ==> bs[i].points[j] == (10 * i) as real + (j + 1) as real
  {
    seq(10, i => Bucket(seq(10, j => (10 * i) as real + (j + 1) as real), 10))
  }

  /** Pass buckets 100, 200, ..., 1000, the last still filling. */
  function DropTestPass(): seq<seq<real>> {
    [[100.0], [200.0], [300.0], [400.0], [500.0], [600.0], [700.0], [800.0], [900.0], [1000.0]]
  }

  /** Pass buckets 200, 300, ..., 1100, the last still filling. */
  function FlightTestPass(): seq<seq<real>> {
    [[200.0], [300.0], [400.0], [500.0], [600.0], [700.0], [800.0], [900.0], [1000.0], [1100.0]]
  }

  /** Eleven throughput ticks 0, 100, ..., 1000: `maxPass()` is 1000. */
  lemma MaxPassScenario()
    ensures MaxPass(New(Some(TestConfig)), PassWindow(RisingPass(), 0.0)).0 == 1000.0
  {
    var pts := Complete(RisingPass(), 10);
    assert pts == RisingPass()[..9];
    assert Sum(pts[8]) == 1000.0;
    forall i | 0 <= i < |pts|
      ensures Sum(pts[i]) <= 1000.0
    {
      assert Sum(pts[i]) == pts[i][0];
    }
  }

  /** Latency buckets 1..10 up to 91..100: `minRt()` is ceil(5.5) = 6. */
  lemma MinRtScenario()
    ensures MinRt(New(Some(TestConfig)), RtWindow(TenLatencyBuckets(), 0.0)).0 == 6
  {
    var bs := Complete(TenLatencyBuckets(), 10);
    assert |bs| == 9;
    forall i | 0 <= i < |bs|
      ensures bs[i].count != 0 && Avg(bs[i]) == (10 * i) as real + 5.5
    {
      ArithmeticSum(bs[i].points, (10 * i) as real);
    }
    assert Avg(bs[0]) == 5.5;
  }

  /** The sum of `a + 1, a + 2, ..., a + n`. */
  lemma {:induction false} ArithmeticSum(xs: seq<real>, a: real)
    requires forall j :: 0 <= j < |xs| ==> xs[j] == a + (j + 1) as real
    ensures 2.0 * Sum(xs) == 2.0 * |xs| as real * a + (|xs| * (|xs| + 1)) as real
    decreases |xs|
  {
    var n := |xs|;
    if n > 0 {
      ArithmeticSum(xs[..n - 1], a);
      assert (n - 1) * n + 2 * n == n * (n + 1);
    }
  }

  /** The complete pass buckets of the `maxFlight` test peak at 1000. */
  lemma FlightTestPassPeak()
    ensures MaxPass(New(Some(TestConfig)), PassWindow(FlightTestPass(), 0.0)).0 == 1000.0
  {
    var pts := Complete(FlightTestPass(), 10);
    assert pts == FlightTestPass()[..9];
    assert Sum(pts[8]) == 1000.0;
    forall i | 0 <= i < |pts|
      ensures Sum(pts[i]) <= 1000.0
    {
      assert Sum(pts[i]) == pts[i][0];
    }
  }

  /** Pass sums 200..1100 and latency buckets 1..100: `maxFlight()` is 1000 * 6 * 10 / 1000 = 60. */
  lemma MaxFlightScenario(cpu: real, now: int)
    ensures MaxFlight(New(Some(TestConfig)), Probe(cpu, now, PassWindow(FlightTestPass(), 0.0),
                                             RtWindow(TenLatencyBuckets(), 0.0))).0 == 60
  {
    var s := New(Some(TestConfig));
    FlightTestPassPeak();
    MinRtScenario();
    assert s.winBucketPerSec == 10.0;
  }

  /** The probe of the drop test: pass sums 100..1000 and latency buckets 1..100. */
  function DropProbe(cpu: real, now: int): Probe {
    Probe(cpu, now, PassWindow(DropTestPass(), 0.0), RtWindow(TenLatencyBuckets(), 0.0))
  }

  /** In the drop test `maxFlight()` is floor(900 * 6 * 10 / 1000 + 0.5) = 54. */
  lemma DropTestLimit(s: Limiter, cpu: real, now: int)
    requires Valid(s) && s.config == TestConfig
    requires s.rawMaxPass == None || s.rawMaxPass == Some(900.0)
    requires s.rawMinRt == None || s.rawMinRt == Some(6)
    ensures MaxFlight(s, DropProbe(cpu, now)).0 == 54
    ensures MaxFlight(s, DropProbe(cpu, now)).1.rawMaxPass == Some(900.0)
    ensures MaxFlight(s, DropProbe(cpu, now)).1.rawMinRt == Some(6)
  {
    var p := DropProbe(cpu, now);
    var pts := Complete(DropTestPass(), 10);
    assert pts == DropTestPass()[..9];
    assert Sum(pts[8]) == 900.0;
    forall i | 0 <= i < |pts|
      ensures Sum(pts[i]) <= 900.0
    {
      assert Sum(pts[i]) == pts[i][0];
    }
    assert MaxPass(s, p.pass).0 == 900.0;
    MinRtScenario();
    assert MinLatency(Complete(TenLatencyBuckets(), 10)) == 6;
    assert MinRt(s, p.rt).0 == 6;
    assert s.winBucketPerSec == 10.0;
  }

  /**
   * The drop test on a fresh controller, as the code behaves: at 80% CPU, 50
   * in flight is admitted and 80 dropped; but the drop records no episode
   * start (the mark is still unset), so at 70% CPU a moment later 80 in
   * flight is admitted, where the test expects a drop; two seconds later it
   * is admitted too.
   */
  lemma DropScenarioFresh(n1: int, n2: int, n3: int)
    requires n1 <= n2 <= n3 < n2 + OneSecondNano
    ensures var s0 := New(Some(TestConfig)).(inFlight := 50);
            var (d1, s1) := ShouldDrop(s0, DropProbe(80.0, n1));
            var (d2, s2) := ShouldDrop(s1.(inFlight := 80), DropProbe(80.0, n2));
            var (d3, s3) := ShouldDrop(s2.(inFlight := 80), DropProbe(70.0, n3));
            var (d4, s4) := ShouldDrop(s3.(inFlight := 80), DropProbe(70.0, n3 + 2 * OneSecondNano));
            !d1 && d2 && s2.prevDrop == Unset && !d3 && s3.prevDrop == Zero && !d4
  {
    var s0 := New(Some(TestConfig)).(inFlight := 50);
    DropTestLimit(s0, 80.0, n1);
    var (d1, s1) := ShouldDrop(s0, DropProbe(80.0, n1));
    DropTestLimit(s1.(inFlight := 80), 80.0, n2);
    var (d2, s2) := ShouldDrop(s1.(inFlight := 80), DropProbe(80.0, n2));
    assert d2 && s2.prevDrop == Unset;
  }

  /**
   * The same test once the mark holds 0 (no active episode), which is what
   * the test's expectations assume: the drop at 80% CPU starts an episode,
   * the call at 70% CPU within one second still drops, and two seconds later
   * the episode is cleared and 80 in flight is admitted.
   */
  lemma DropScenarioFromZeroMark(n1: int, n2: int, n3: int)
    requires 0 < n1 <= n2 <= n3 < n2 + OneSecondNano
    ensures var s0 := New(Some(TestConfig)).(inFlight := 50, prevDrop := Zero);
            var (d1, s1) := ShouldDrop(s0, DropProbe(80.0, n1));
            var (d2, s2) := ShouldDrop(s1.(inFlight := 80), DropProbe(80.0, n2));
            var (d3, s3) := ShouldDrop(s2.(inFlight := 80), DropProbe(70.0, n3));
            var (d4, s4) := ShouldDrop(s3.(inFlight := 80), DropProbe(70.0, n3 + 2 * OneSecondNano));
            !d1 && d2 && s2.prevDrop == At(n2) && d3 && s3.prevDrop == At(n2) && !d4 && s4.prevDrop == Zero
  {
    var s0 := New(Some(TestConfig)).(inFlight := 50, prevDrop := Zero);
    DropTestLimit(s0, 80.0, n1);
    var (d1, s1) := ShouldDrop(s0, DropProbe(80.0, n1));
    DropTestLimit(s1.(inFlight := 80), 80.0, n2);
    var (d2, s2) := ShouldDrop(s1.(inFlight := 80), DropProbe(80.0, n2));
    assert d2 && s2.prevDrop == At(n2);
    DropTestLimit(s2.(inFlight := 80), 70.0, n3);
    var (d3, s3) := ShouldDrop(s2.(inFlight := 80), DropProbe(70.0, n3));
    assert d3;
  }
}

=== FILE: cpu.dfy ===
/**
 * CPU load sampling (src/cpu.ts): per-core CPU-time snapshots are merged into
 * one record, the busy percentage between two snapshots is computed, and the
 * percentage is blended with the previous raw reading.
 *
 * The OS source (`os.cpus()`) and the sampling timers are not modelled: each
 * tick receives the snapshot it would have read as a parameter.
 */
module Cpu {
  import opened Wrappers
  import opened Numeric

  /** The cumulative times one core reports (the `times` of an `os.CpuInfo`). */
  datatype CpuTimes = CpuTimes(idle: real, user: real, sys: real, irq: real, nice: real)

  /** The five time fields of a snapshot. */
  datatype Field = Idle | User | Sys | Irq | Nice

  function Get(c: CpuTimes, f: Field): real {
    match f
    case Idle => c.idle
    case User => c.user
    case Sys => c.sys
    case Irq => c.irq
    case Nice => c.nice
  }

  /** The error `calculateAllBusy` throws: the two snapshots disagree on the core count. */
  datatype CountMismatch = CountMismatch(left: nat, right: nat)

  /** Sum of field `f` over all cores, accumulated front to back. */
  function Total(ts: seq<CpuTimes>, f: Field): real
    decreases |ts|
  {
    if |ts| == 0 then 0.0 else Total(ts[..|ts| - 1], f) + Get(ts[|ts| - 1], f)
  }

  /** Time spent busy: every field except `idle`. */
  function Busy(t: CpuTimes): real {
    t.irq + t.nice + t.sys + t.user
  }

  /** The `[all, busy]` pair of `getAllBusy`. */
  function AllBusy(t: CpuTimes): (r: (real, real))
    ensures r.1 == Busy(t)
    ensures r.0 - r.1 == t.idle
    ensures r.0 == Get(t, Idle) + Get(t, User) + Get(t, Sys) + Get(t, Irq) + Get(t, Nice)
  {
    var busy := Busy(t);
    (busy + t.idle, busy)
  }

  function Clamp(lo: real, hi: real, x: real): real
    requires lo <= hi
  {
    if x < lo then lo else if x > hi then hi else x
  }

  /**
   * Busy percentage between snapshots `t1` and `t2`. A busy time that did not
   * grow gives 0 (checked first); busy time that grew while total time did
   * not gives 100; otherwise the ratio of the growths, clamped to [0, 100].
   */
  function CalculateBusy(t1: CpuTimes, t2: CpuTimes): (r: real)
    ensures 0.0 <= r <= 100.0
    ensures r == 0.0 <==> AllBusy(t2).1 <= AllBusy(t1).1
    ensures r == 100.0 <==>
      AllBusy(t1).1 < AllBusy(t2).1 &&
      (AllBusy(t2).0 <= AllBusy(t1).0 || AllBusy(t2).0 - AllBusy(t1).0 <= AllBusy(t2).1 - AllBusy(t1).1)
    ensures 0.0 < r < 100.0 ==>
      AllBusy(t2).0 > AllBusy(t1).0 &&
      r * (AllBusy(t2).0 - AllBusy(t1).0) == 100.0 * (AllBusy(t2).1 - AllBusy(t1).1)
  {
    var (all1, busy1) := AllBusy(t1);
    var (all2, busy2) := AllBusy(t2);
    if busy2 <= busy1 then 0.0
    else if all2 <= all1 then 100.0
    else
      var ratio := (busy2 - busy1) / (all2 - all1);
      assert ratio > 0.0;
      assert ratio >= 1.0 <==> all2 - all1 <= busy2 - busy1;
      Clamp(0.0, 100.0, ratio * 100.0)
  }

  /** When idle time did not run backwards, the clamp never bites: the result is the plain ratio. */
  lemma BusyIsPlainRatio(t1: CpuTimes, t2: CpuTimes)
    requires Busy(t1) < Busy(t2)
    requires t1.idle <= t2.idle
    ensures CalculateBusy(t1, t2) * (AllBusy(t2).0 - AllBusy(t1).0) == 100.0 * (Busy(t2) - Busy(t1))
  {
    var dAll := AllBusy(t2).0 - AllBusy(t1).0;
    var dBusy := Busy(t2) - Busy(t1);
    assert dAll >= dBusy > 0.0;
    var ratio := dBusy / dAll;
    assert ratio <= 1.0 by {
      assert ratio * dAll == dBusy;
    }
  }

  /** The element-wise busy percentages, or the mismatch error when the core counts differ. */
  method CalculateAllBusy(t1: seq<CpuTimes>, t2: seq<CpuTimes>) returns (r: Result<seq<real>, CountMismatch>)
    ensures r.Failure? <==> |t1| != |t2|
    ensures r.Failure? ==> r.error == CountMismatch(|t1|, |t2|)
    ensures r.Success? ==>
      |r.value| == |t1| && forall i :: 0 <= i < |t1| ==> r.value[i] == CalculateBusy(t1[i], t2[i])
  {
    if |t1| != |t2| {
      return Failure(CountMismatch(|t1|, |t2|));
    }
    var res: seq<real> := [];
    var i := 0;
    while i < |t1|
      invariant 0 <= i <= |t1|
      invariant |res| == i
      invariant forall j :: 0 <= j < i ==> res[j] == CalculateBusy(t1[j], t2[j])
    {
      res := res + [CalculateBusy(t1[i], t2[i])];
      i := i + 1;
    }
    return Success(res);
  }

  /** Snapshot whose every field is that field's total over `ts`. */
  function Merged(ts: seq<CpuTimes>): CpuTimes {
    CpuTimes(Total(ts, Idle), Total(ts, User), Total(ts, Sys), Total(ts, Irq), Total(ts, Nice))
  }

  /** `mergeAll`: exactly one record, each field summed over every core. */
  method MergeAll(ts: seq<CpuTimes>) returns (r: seq<CpuTimes>)
    ensures |r| == 1
    ensures forall f :: Get(r[0], f) == Total(ts, f)
    ensures r[0] == Merged(ts)
  {
    var acc := CpuTimes(0.0, 0.0, 0.0, 0.0, 0.0);
    var i := 0;
    while i < |ts|
      invariant 0 <= i <= |ts|
      invariant forall f :: Get(acc, f) == Total(ts[..i], f)
    {
      assert ts[..i + 1][..i] == ts[..i];
      acc := CpuTimes(acc.idle + ts[i].idle, acc.user + ts[i].user, acc.sys + ts[i].sys,
                      acc.irq + ts[i].irq, acc.nice + ts[i].nice);
      i := i + 1;
    }
    assert ts[..i] == ts;
    assert Get(acc, Idle) == Total(ts, Idle) && Get(acc, User) == Total(ts, User);
    assert Get(acc, Sys) == Total(ts, Sys) && Get(acc, Irq) == Total(ts, Irq);
    assert Get(acc, Nice) == Total(ts, Nice);
    r := [acc];
  }

  /** Merging no cores gives a record of zeros. */
  lemma MergedEmptyIsZero()
    ensures Merged([]) == CpuTimes(0.0, 0.0, 0.0, 0.0, 0.0)
  {
  }

  /** The busy time of the merged record is the busy time summed over the cores. */
  lemma {:induction false} MergedBusyIsSumOfBusy(ts: seq<CpuTimes>)
    ensures Busy(Merged(ts)) == SumBusy(ts)
    decreases |ts|
  {
    if |ts| > 0 {
      MergedBusyIsSumOfBusy(ts[..|ts| - 1]);
    }
  }

  function SumBusy(ts: seq<CpuTimes>): real
    decreases |ts|
  {
    if |ts| == 0 then 0.0 else SumBusy(ts[..|ts| - 1]) + Busy(ts[|ts| - 1])
  }

  /** State of a `CpuStat` sampler. */
  datatype CpuStat = CpuStat(isFirstTime: bool, lastCpuInfo: seq<CpuTimes>, cpuPercent: real)

  /** A fresh sampler: no baseline yet and a reading of 0. */
  function NewCpuStat(): (s: CpuStat)
    ensures s.isFirstTime && StatOf(s) == 0.0
  {
    CpuStat(true, [], 0.0)
  }

  /** The `stat` getter: the last computed percentage. */
  function StatOf(s: CpuStat): (r: real)
    ensures r == s.cpuPercent
  {
    s.cpuPercent
  }

  /**
   * One sampler tick with `nowInfo` the per-core snapshot read at this tick.
   * The first tick only stores the baseline; every later tick computes the
   * percentage between the merged baseline and the merged snapshot and then
   * replaces the baseline. The core-count error cannot occur here.
   */
  method CpuStatTick(s: CpuStat, nowInfo: seq<CpuTimes>) returns (s': CpuStat)
    ensures !s'.isFirstTime && s'.lastCpuInfo == nowInfo
    ensures s.isFirstTime ==> s'.cpuPercent == s.cpuPercent
    ensures !s.isFirstTime ==> s'.cpuPercent == CalculateBusy(Merged(s.lastCpuInfo), Merged(nowInfo))
    ensures !s.isFirstTime ==> 0.0 <= StatOf(s') <= 100.0
  {
    if s.isFirstTime {
      return CpuStat(false, nowInfo, s.cpuPercent);
    }
    var before := MergeAll(s.lastCpuInfo);
    var after := MergeAll(nowInfo);
    var res := CalculateAllBusy(before, after);
    assert res.Success?;
    s' := CpuStat(false, nowInfo, res.value[0]);
  }

  /** Default smoothing factor of `Cpuproc`. */
  const DefaultDecay: real := 0.95

  /** State of a `Cpuproc` smoother: the previous raw reading and the blended value. */
  datatype Cpuproc = Cpuproc(lastCpu: real, cpu: real, decay: real)

  /** The constructor: both readings start at 0; `decay` defaults to `DefaultDecay`. */
  function NewCpuproc(decay: Option<real>): (p: Cpuproc)
    ensures ProcStat(p) == 0.0 && p.lastCpu == 0.0
    ensures decay.Some? ==> p.decay == decay.value
    ensures decay.None? ==> p.decay == DefaultDecay && InRange(p)
    ensures decay.Some? && 0.0 <= decay.value <= 1.0 ==> InRange(p)
  {
    Cpuproc(0.0, 0.0, if decay.Some? then decay.value else DefaultDecay)
  }

  /** The `stat()` read: the blended value, state untouched. */
  function ProcStat(p: Cpuproc): (r: real)
    ensures r == p.cpu
  {
    p.cpu
  }

  ghost predicate InRange(p: Cpuproc) {
    0.0 <= p.decay <= 1.0 && 0.0 <= p.lastCpu <= 100.0 && 0.0 <= p.cpu <= 100.0
  }

  /**
   * One smoother tick with `curCpu` the sampler's current reading. The new
   * value blends the previous RAW reading with the current one; the previous
   * blended value plays no part.
   */
  function ProcTick(p: Cpuproc, curCpu: real): (p': Cpuproc)
    ensures p'.lastCpu == curCpu && p'.decay == p.decay
    ensures 0.0 <= p.decay <= 1.0 ==> Min(p.lastCpu, curCpu) <= p'.cpu <= Max(p.lastCpu, curCpu)
    ensures p.decay == 1.0 ==> p'.cpu == p.lastCpu
    ensures p.decay == 0.0 ==> p'.cpu == curCpu
  {
    var blended := p.lastCpu * p.decay + curCpu * (1.0 - p.decay);
    assert 0.0 <= p.decay <= 1.0 ==> Min(p.lastCpu, curCpu) <= blended <= Max(p.lastCpu, curCpu) by {
      if 0.0 <= p.decay <= 1.0 {
        ConvexBetween(p.lastCpu, curCpu, p.decay);
      }
    }
    Cpuproc(curCpu, blended, p.decay)
  }

  lemma ConvexBetween(a: real, b: real, d: real)
    requires 0.0 <= d <= 1.0
    ensures Min(a, b) <= a * d + b * (1.0 - d) <= Max(a, b)
  {
    var m := a * d + b * (1.0 - d);
    if a <= b {
      var e := b - a;
      assert m == b - e * d;
      MulNonNegative(e, d);
      MulNonNegative(e, 1.0 - d);
      assert e * d + e * (1.0 - d) == e;
    } else {
      var e := a - b;
      assert m == b + e * d;
      MulNonNegative(e, d);
      MulNonNegative(e, 1.0 - d);
      assert e * d + e * (1.0 - d) == e;
    }
  }

  lemma MulNonNegative(x: real, y: real)
    requires x >= 0.0 && y >= 0.0
    ensures x * y >= 0.0
  {
  }

  /** The blended value is not an average of itself: the old blended value is forgotten. */
  lemma ProcTickForgetsBlended(p: Cpuproc, x: real, curCpu: real)
    ensures ProcTick(p.(cpu := x), curCpu) == ProcTick(p, curCpu)
  {
  }

  /** Runs the smoother over a series of readings. */
  function ProcRun(p: Cpuproc, readings: seq<real>): Cpuproc
    decreases |readings|
  {
    if |readings| == 0 then p else ProcRun(ProcTick(p, readings[0]), readings[1..])
  }

  /** With decay in [0,1] and every reading in [0,100], the smoothed value stays in [0,100]. */
  lemma {:induction false} ProcRunStaysInRange(p: Cpuproc, readings: seq<real>)
    requires InRange(p)
    requires forall i :: 0 <= i < |readings| ==> 0.0 <= readings[i] <= 100.0
    ensures InRange(ProcRun(p, readings))
    ensures 0.0 <= ProcStat(ProcRun(p, readings)) <= 100.0
    decreases |readings|
  {
    if |readings| > 0 {
      var q := ProcTick(p, readings[0]);
      assert Min(p.lastCpu, readings[0]) >= 0.0 && Max(p.lastCpu, readings[0]) <= 100.0;
      assert InRange(q);
      ProcRunStaysInRange(q, readings[1..]);
    }
  }
}

=== FILE: group.dfy ===
/**
 * The memoizing keyed group of src/group.ts: `get(key)` builds a value with
 * `newFunc` the first time a key is asked for and caches it; `reset` forgets
 * every cached value.
 *
 * `newFunc` is an abstract generator: `newFunc(n)` is the value its n-th call
 * (counting from 0) returns, and the group counts the calls it makes.
 */
module Group {

  /** The cache and the number of `newFunc` calls made so far. */
  datatype Memo<K, T> = Memo(entries: map<K, T>, calls: nat)

  function New<K, T>(): (g: Memo<K, T>)
    ensures g.entries == map[] && g.calls == 0
  {
    Memo(map[], 0)
  }

  /** `get(key)`: the cached value, or a fresh one from `newFunc` which is then cached. */
  function Get<K, T>(g: Memo<K, T>, newFunc: nat -> T, key: K): (r: (T, Memo<K, T>))
    ensures key in r.1.entries && r.1.entries[key] == r.0
    ensures key in g.entries ==> r.0 == g.entries[key] && r.1 == g
    ensures key !in g.entries ==> r.0 == newFunc(g.calls) && r.1.calls == g.calls + 1
    ensures r.1.entries.Keys == g.entries.Keys + {key}
    ensures forall k :: k in g.entries && k != key ==> r.1.entries[k] == g.entries[k]
  {
    if key !in g.entries then
      var v := newFunc(g.calls);
      (v, Memo(g.entries[key := v], g.calls + 1))
    else
      (g.entries[key], g)
  }

  /** `reset()`: empties the cache; the generator's call count is not affected. */
  function Reset<K, T>(g: Memo<K, T>): (g': Memo<K, T>)
    ensures g'.entries == map[] && g'.calls == g.calls
  {
    g.(entries := map[])
  }

  /** After a reset, asking for any key calls `newFunc` again. */
  lemma GetAfterResetCallsNewFunc<K, T>(g: Memo<K, T>, newFunc: nat -> T, key: K)
    ensures Get(Reset(g), newFunc, key).1.calls == g.calls + 1
    ensures Get(Reset(g), newFunc, key).0 == newFunc(g.calls)
  {
  }

  /** Asking for the same key twice returns the same value and calls `newFunc` at most once. */
  lemma GetTwiceSameValue<K, T>(g: Memo<K, T>, newFunc: nat -> T, key: K)
    ensures var (v1, g1) := Get(g, newFunc, key);
            var (v2, g2) := Get(g1, newFunc, key);
            v2 == v1 && g2 == g1 && g2.calls <= g.calls + 1
  {
  }

  /** The keys of a series of requests. */
  function KeySet<K>(ks: seq<K>): set<K>
    decreases |ks|
  {
    if |ks| == 0 then {} else {ks[0]} + KeySet(ks[1..])
  }

  /** Issues `get` for each key in order. */
  function GetAll<K, T>(g: Memo<K, T>, newFunc: nat -> T, ks: seq<K>): Memo<K, T>
    decreases |ks|
  {
    if |ks| == 0 then g else GetAll(Get(g, newFunc, ks[0]).1, newFunc, ks[1..])
  }

  /**
   * A series of requests calls `newFunc` once per requested key that was not
   * cached yet, and leaves exactly the old and the requested keys cached.
   */
  lemma {:induction false} GetAllCallsPerNewKey<K, T>(g: Memo<K, T>, newFunc: nat -> T, ks: seq<K>)
    ensures GetAll(g, newFunc, ks).calls == g.calls + |KeySet(ks) - g.entries.Keys|
    ensures GetAll(g, newFunc, ks).entries.Keys == g.entries.Keys + KeySet(ks)
    decreases |ks|
  {
    if |ks| > 0 {
      var g1 := Get(g, newFunc, ks[0]).1;
      GetAllCallsPerNewKey(g1, newFunc, ks[1..]);
      GetStep(g, newFunc, ks[0]);
      NewKeysSplit(g.entries.Keys, ks[0], KeySet(ks[1..]));
      assert KeySet(ks) == {ks[0]} + KeySet(ks[1..]);
    }
  }

  /** What one `get` does to the call count and the cached keys. */
  lemma GetStep<K, T>(g: Memo<K, T>, newFunc: nat -> T, key: K)
    ensures var g1 := Get(g, newFunc, key).1;
            && g1.entries.Keys == g.entries.Keys + {key}
            && g1.calls == g.calls + (if key in g.entries then 0 else 1)
  {
  }

  /** Counting the not-yet-cached keys one request at a time. */
  lemma NewKeysSplit<K>(a: set<K>, k0: K, rest: set<K>)
    ensures |({k0} + rest) - a| == |rest - (a + {k0})| + (if k0 in a then 0 else 1)
    ensures (a + {k0}) + rest == a + ({k0} + rest)
  {
    if k0 in a {
      assert ({k0} + rest) - a == rest - (a + {k0});
    } else {
      var d := rest - (a + {k0});
      assert ({k0} + rest) - a == d + {k0};
    }
  }

  /** Since the last reset, the number of `newFunc` calls is the number of distinct keys requested. */
  lemma CallsSinceResetAreDistinctKeys<K, T>(g: Memo<K, T>, newFunc: nat -> T, ks: seq<K>)
    ensures GetAll(Reset(g), newFunc, ks).calls - g.calls == |KeySet(ks)|
  {
    GetAllCallsPerNewKey(Reset(g), newFunc, ks);
  }
}

=== FILE: numeric.dfy ===
/** Small numeric helpers shared by the CPU gauge and the Bbr controller. */
module Numeric {

  /** The smaller of two reals. */
  function Min(a: real, b: real): (m: real)
    ensures m <= a && m <= b
    ensures m == a || m == b
  {
    if a <= b then a else b
  }

  /** The larger of two reals. */
  function Max(a: real, b: real): (m: real)
    ensures m >= a && m >= b
    ensures m == a || m == b
  {
    if a >= b then a else b
  }
}

=== FILE: rolling_counter.dfy ===
/**
 * The timestamped counter of src/rollingCounter.ts: a list of `(val, time)`
 * entries that grows at the end and is pruned from the front by a window start.
 * (This is not the bucketed counter the Bbr limiter uses.)
 *
 * The nanosecond clock is a parameter `now`; the garbage-collection timer is
 * not modelled, a `Gc` call stands for one of its ticks.
 */
module RollingCounter {
  import opened Wrappers

  const OneSecondNano: int := 1_000_000_000

  /** One recorded value and the time it was recorded at. */
  datatype Entry = Entry(val: real, time: int)

  /** The counter: its entries in insertion order and the window length in nanoseconds. */
  datatype Counter = Counter(store: seq<Entry>, windowNano: int)

  /** The constructor: an empty store, and the given `windowNano` over the one-second default. */
  function New(windowNano: Option<int>): (c: Counter)
    ensures c.store == []
    ensures windowNano.Some? ==> c.windowNano == windowNano.value
    ensures windowNano.None? ==> c.windowNano == OneSecondNano
  {
    Counter([], if windowNano.Some? then windowNano.value else OneSecondNano)
  }

  /** `add(val, time)`: `time` defaults to the clock, so the caller passes it explicitly. */
  function Add(c: Counter, val: real, time: int): (c': Counter)
    ensures |c'.store| == |c.store| + 1
    ensures c'.store[..|c.store|] == c.store
    ensures c'.store[|c.store|] == Entry(val, time)
    ensures c'.windowNano == c.windowNano
  {
    c.(store := c.store + [Entry(val, time)])
  }

  /**
   * The window start in effect: an explicit `start` unless it is absent or 0
   * (`start || windowStartNano()`), otherwise `now - windowNano`.
   */
  function EffectiveStart(c: Counter, start: Option<int>, now: int): (s: int)
    ensures start.Some? && start.value != 0 ==> s == start.value
    ensures start == None || start == Some(0) ==> s + c.windowNano == now
  {
    match start
    case Some(v) => if v != 0 then v else now - c.windowNano
    case None => now - c.windowNano
  }

  /** `findIndex(c => c.time >= s)`: the first entry at or after `s`, or -1. */
  function FindFirstAtOrAfter(store: seq<Entry>, s: int): (i: int)
    ensures -1 <= i < |store|
    ensures i == -1 <==> forall j :: 0 <= j < |store| ==> store[j].time < s
    ensures i >= 0 ==> store[i].time >= s && forall j :: 0 <= j < i ==> store[j].time < s
    decreases |store|
  {
    if |store| == 0 then -1
    else if store[0].time >= s then 0
    else
      var k := FindFirstAtOrAfter(store[1..], s);
      if k < 0 then -1 else k + 1
  }

  /** The entries `gc(s)` keeps. */
  function Prune(store: seq<Entry>, s: int): (kept: seq<Entry>)
    ensures |kept| <= |store|
    ensures kept == store[|store| - |kept|..]
    ensures forall j :: 0 <= j < |store| - |kept| ==> store[j].time < s
    ensures |kept| > 0 ==> kept[0].time >= s
    ensures kept == [] <==> forall j :: 0 <= j < |store| ==> store[j].time < s
  {
    var i := FindFirstAtOrAfter(store, s);
    if i < 0 then [] else store[i..]
  }

  /** `gc(start)`: drops every entry before the first one recorded at or after the window start. */
  function Gc(c: Counter, start: Option<int>, now: int): (c': Counter)
    ensures c'.windowNano == c.windowNano
    ensures |c'.store| <= |c.store| && c'.store == c.store[|c.store| - |c'.store|..]
    ensures forall j :: 0 <= j < |c.store| - |c'.store| ==> c.store[j].time < EffectiveStart(c, start, now)
    ensures |c'.store| > 0 ==> c'.store[0].time >= EffectiveStart(c, start, now)
  {
    c.(store := Prune(c.store, EffectiveStart(c, start, now)))
  }

  /** The sum of the values; `reduce` adds them front to back, and over exact reals the order does not matter. */
  function SumVals(es: seq<Entry>): real
    decreases |es|
  {
    if |es| == 0 then 0.0 else es[0].val + SumVals(es[1..])
  }

  /** `reduceTotal(start)`: prunes the store, then returns the sum of what is left. */
  function ReduceTotal(c: Counter, start: Option<int>, now: int): (r: (real, Counter))
    ensures r.1 == Gc(c, start, now)
    ensures r.0 == SumVals(r.1.store)
    ensures Sorted(c.store) ==> r.0 == SumSince(c.store, EffectiveStart(c, start, now))
  {
    var c' := Gc(c, start, now);
    var total := SumVals(c'.store);
    assert Sorted(c.store) ==> total == SumSince(c.store, EffectiveStart(c, start, now)) by {
      if Sorted(c.store) {
        PruneSumIsWindowSum(c.store, EffectiveStart(c, start, now));
      }
    }
    (total, c')
  }

  /** The `stats()` record: the number of stored entries. */
  function Stats(c: Counter): (size: nat)
    ensures size == |c.store|
    ensures size == 0 <==> c.store == []
  {
    |c.store|
  }

  /** `add` grows the reported size by one; `gc` never grows it, and empties it iff nothing is in the window. */
  lemma StatsTrackAddAndGc(c: Counter, val: real, time: int, start: Option<int>, now: int)
    ensures Stats(Add(c, val, time)) == Stats(c) + 1
    ensures Stats(Gc(c, start, now)) <= Stats(c)
    ensures Stats(Gc(c, start, now)) == 0 <==>
      forall j :: 0 <= j < |c.store| ==> c.store[j].time < EffectiveStart(c, start, now)
  {
  }

  /** Times recorded in non-decreasing order, as they are when every `add` uses the clock. */
  ghost predicate Sorted(store: seq<Entry>) {
    forall i, j :: 0 <= i <= j < |store| ==> store[i].time <= store[j].time
  }

  /** Pruning twice with the same start prunes nothing more. */
  lemma PruneIdempotent(store: seq<Entry>, s: int)
    ensures Prune(Prune(store, s), s) == Prune(store, s)
  {
    var kept := Prune(store, s);
    if |kept| > 0 {
      assert FindFirstAtOrAfter(kept, s) == 0;
      assert kept[0..] == kept;
    }
  }

  /** At a fixed clock reading, `gc` is idempotent whatever its start argument, including none. */
  lemma GcIdempotent(c: Counter, start: Option<int>, now: int)
    ensures Gc(Gc(c, start, now), start, now) == Gc(c, start, now)
  {
    PruneIdempotent(c.store, EffectiveStart(c, start, now));
  }

  /** With sorted times, every kept entry is at or after the start and the kept entries stay sorted. */
  lemma PruneSortedKeepsWindow(store: seq<Entry>, s: int)
    requires Sorted(store)
    ensures Sorted(Prune(store, s))
    ensures forall j :: 0 <= j < |Prune(store, s)| ==> Prune(store, s)[j].time >= s
  {
  }

  /** Appending at the clock keeps the store sorted. */
  lemma AddKeepsSorted(c: Counter, val: real, now: int)
    requires Sorted(c.store)
    requires forall j :: 0 <= j < |c.store| ==> c.store[j].time <= now
    ensures Sorted(Add(c, val, now).store)
  {
  }

  /** Reference definition: the sum of the values of entries recorded at or after `s`. */
  function SumSince(store: seq<Entry>, s: int): real
    decreases |store|
  {
    if |store| == 0 then 0.0
    else (if store[0].time >= s then store[0].val else 0.0) + SumSince(store[1..], s)
  }

  lemma {:induction false} SumSinceAllBefore(store: seq<Entry>, s: int)
    requires forall j :: 0 <= j < |store| ==> store[j].time < s
    ensures SumSince(store, s) == 0.0
    decreases |store|
  {
    if |store| > 0 {
      SumSinceAllBefore(store[1..], s);
    }
  }

  lemma {:induction false} SumSinceAllAfter(store: seq<Entry>, s: int)
    requires forall j :: 0 <= j < |store| ==> store[j].time >= s
    ensures SumSince(store, s) == SumVals(store)
    decreases |store|
  {
    if |store| > 0 {
      SumSinceAllAfter(store[1..], s);
    }
  }

  /** Splitting a store splits the windowed sum. */
  lemma {:induction false} SumSinceAppend(a: seq<Entry>, b: seq<Entry>, s: int)
    ensures SumSince(a + b, s) == SumSince(a, s) + SumSince(b, s)
    decreases |a|
  {
    if |a| > 0 {
      assert (a + b)[1..] == a[1..] + b;
      SumSinceAppend(a[1..], b, s);
    } else {
      assert a + b == b;
    }
  }

  /** For a sorted store, the kept entries carry exactly the values recorded at or after `s`. */
  lemma PruneSumIsWindowSum(store: seq<Entry>, s: int)
    requires Sorted(store)
    ensures SumVals(Prune(store, s)) == SumSince(store, s)
  {
    var kept := Prune(store, s);
    var dropped := store[..|store| - |kept|];
    assert store == dropped + kept;
    SumSinceAppend(dropped, kept, s);
    SumSinceAllBefore(dropped, s);
    PruneSortedKeepsWindow(store, s);
    SumSinceAllAfter(kept, s);
  }

  /**
   * For a sorted store, `reduceTotal(s)` is the sum of the values recorded at
   * or after `s`: pruning loses nothing inside the window.
   */
  lemma ReduceTotalIsWindowSum(c: Counter, s: int, now: int)
    requires Sorted(c.store)
    requires s != 0
    ensures ReduceTotal(c, Some(s), now).0 == SumSince(c.store, s)
  {
    assert EffectiveStart(c, Some(s), now) == s;
    PruneSumIsWindowSum(c.store, s);
  }

  /** A start of 0 behaves exactly like an absent start. */
  lemma ZeroStartIsAbsent(c: Counter, now: int)
    ensures Gc(c, Some(0), now) == Gc(c, None, now)
    ensures ReduceTotal(c, Some(0), now) == ReduceTotal(c, None, now)
  {
  }
}

=== FILE: wrappers.dfy ===
/** Failure-compatible wrappers shared by the other modules. */
module Wrappers {

  /** A value that may be absent (JavaScript's `undefined`). */
  datatype Option<+T> = None | Some(value: T)

  /** The outcome of an operation that can throw: a value or the error it throws. */
  datatype Result<+R, +E> = Success(value: R) | Failure(error: E)
}
